=== FILE: README.md ===
# yubikey — a verified model of the WebAuthn relying party

This project models the core of the `yubikey` server, a small WebAuthn relying party.

- **Users registry** (`UserRegistry`, users.go). It keeps an in-memory store of users with two indices: ID→user and email→ID. Each user has an append-only list of credentials.
- **Ceremony handlers** (`Authn`, authn.go). Four HTTP handlers drive registration and login: they create or look up a user, call the go-webauthn engine, keep the ceremony state in a cookie session and append verified credentials.
- **Session store** (`Session`, session/session.go). It stores marshalled ceremony state under a per-ceremony key of the session named "webauthn-session", reads it back and deletes it. It also generates the cookie key.
- **Server lifecycle** (`Yubikey`, yubikey.go). It covers the health and readiness flags, the order of bind, status and shutdown steps, how shutdown errors are folded into one, and how the server's URL is derived from the bound address.
- **Configuration** (`Configuration`, config/config.go). It covers mode validation, the `processed` mark behind `IsZero`, the success and failure shapes of `New`, and the mappings into the TLS and WebAuthn settings.

`Common` holds what the packages share: the result wrappers, bytes, UUIDs, the error values with their messages, and decimal rendering.

## How the model is built

Each handler is a `method` over two objects:

- a `Users` registry, a class whose maps the methods reassign;
- a `Request`, which holds the session values the request decoded and what the response cookie carries.

The two finish handlers are proved against pure verdict functions of the state before the call (`RegistrationVerdict`, `LoginVerdict`, `Registered`). The two begin handlers state their outcomes directly in their postconditions: the registry change (`FoundOrCreated`), the engine call and the session write (`RegistrationBegun`). Lemmas about the verdict functions state the ceremony's properties:

- the checks run in order;
- a credential ID is never held twice;
- a second registration of the same credential is refused;
- the state stored by a begin step leads the matching finish step, of registration or of login, back to the same user;
- each ceremony reads only its own key.

The registry keeps one invariant besides the consistency of its two indices: no credential ID is held twice (`Users.CredentialsUnique`). The registry constructor, `NewUser`, `FindOrCreateUser`, `BeginRegistration` and `FinishRegistration` all establish it.

The go-webauthn engine is a datatype of four functions that may succeed or fail on any input. The user's WebAuthn view (`Account`) is a value, and `Users.Accounts()` gives the whole store as a map of those values.

Randomness, the clock, the socket and the HTTP server's own results are method parameters:

- `uuid.New()` becomes the parameter `newID`, a version-4 UUID not already in use;
- `crypto/rand` becomes the parameters `entropy` and `readErr`;
- `time.Now()` becomes `now`;
- `net.Listen` becomes `listen`;
- `http.Server.Shutdown` becomes `httpErr`;
- whether a cookie is written becomes `saveOk`.

`uuid.Parse` is a function the registry is built with. `CredentialExists` is called in authn.go:101, but its definition is not among the files this model covers. The model defines it as "some user holds a credential with this ID" (`UserRegistry.CredentialHeld`); this is an assumption.

JSON marshalling of the session data is replaced by a self-delimiting byte framing. `Session.MarshalRoundTrip` proves that framing round-trips, which is the only property of `json.Marshal`/`json.Unmarshal` the handlers rely on.

Where the code falls short of what a WebAuthn relying party is usually expected to guarantee (single-use challenges, counter checks, ceremony kinds), the model follows the code:

- **Consumed ceremony state.** `GetWebauthnSession` deletes the key from the decoded session values but never saves the session (session/session.go:61). So the response does not clear the cookie, and the same ceremony state can be presented again. `Session.ConsumedFromSession` states that the response is unchanged.
- **Login counter.** `FinishLogin` discards the credential the engine returns (authn.go:174). There is no signature-counter check and nothing is persisted.
- **Wrong-kind ceremony state.** A ceremony of the wrong kind is not detected by a kind tag. Each finish step reads its own key, and a missing key gives `ErrMarshal` ("error unmarshaling data").
- **Failed begin steps.** `BeginRegistration` creates the user before calling the engine. A later failure still leaves the new user registered.

## Model

| member | source | states |
|---|---|---|
| `Common.FromBytes` | users.go:39-41 | a byte slice converts to a UUID exactly when it has 16 bytes, unchanged; otherwise the error carries the length |
| `Common.Version4IsNotNil` | users.go:57-58 | a generated (version 4) UUID is never the nil UUID, which a missing email reads as |
| `Common.DigitsRoundTrip` | yubikey.go:216 | the `%d` rendering of a port reads back as the same number |
| `UserRegistry.User.constructor` | users.go:65-70 | a new user has the given ID, name and email and no credentials |
| `UserRegistry.User.WebAuthnID` | users.go:100-104 | the user handle is non-empty, at most 64 bytes, and converts back to the user's ID |
| `UserRegistry.User.View` | users.go:100-133 | what the engine sees of a user is its handle, display name, account name and credentials, read through the `webAuthn.User` accessors; the handle converts back to the user's ID |
| `UserRegistry.User.CredentialExcludeList` | users.go:135-147 | the exclude list has one public-key descriptor per credential, in order, carrying that credential's ID |
| `UserRegistry.User.AddCredential` | users.go:149-153 | exactly one credential is appended at the end; earlier ones are unchanged |
| `UserRegistry.Users.constructor` | users.go:18-23 | a new registry is empty and consistent, and no credential ID is held twice |
| `UserRegistry.Users.Lookup` | users.go:31-52 | UUIDs are used directly, strings and bytes are parsed first and parse errors are returned, other types give ErrUnknownIDType, unknown IDs give ErrUserNotFound; success returns the user stored under that ID |
| `UserRegistry.Users.GetUser` | users.go:54-62 | succeeds exactly when the email is registered, returning the user indexed under it (whose email it is); ErrUserNotFound otherwise |
| `UserRegistry.Users.NewUser` | users.go:64-81 | a registered email gives ErrUserAlreadyExists with both maps unchanged; otherwise a fresh user with no credentials is indexed under its ID and email, nothing else changes, and the registry stays consistent with no credential ID held twice |
| `UserRegistry.EmptyAccountKeepsCredentialIDsUnique` | users.go:65-80 | adding an account with no credentials keeps every credential ID held once |
| `UserRegistry.Users.WebAuthnNameFindsUser` | users.go:54-62 | the account name a stored user gives the engine finds that user by email |
| `UserRegistry.Users.WebAuthnIDFindsUser` | users.go:31-52 | the user handle a stored user gives the engine looks that same user up |
| `Session.UnframeFrame` | session/session.go:56 | decoding reads exactly one encoded field off the front of its input and returns what follows |
| `Session.MarshalRoundTrip` | session/session.go:39 | unmarshalling marshalled session data gives it back |
| `Session.Request.constructor` | session/session.go:48 | a request starts with the session values its cookies decode to and an empty response |
| `Session.DecodeEntry` | session/session.go:52-59 | an absent value or one that is not a byte slice gives ErrMarshal; a byte slice is unmarshalled |
| `Session.SavedSessionReadsBack` | session/session.go:38-62 | session data stored under a key is what reading that key returns |
| `Session.OtherKeysUnaffected` | session/session.go:71 | storing under one key leaves what every other key reads unchanged |
| `Session.Store.constructor` | session/session.go:32-34 | the store keeps the key pairs it is given |
| `Session.Store.SaveWebauthnSession` | session/session.go:38-44 | the marshalled data is stored under the key of the "webauthn-session" values; the error is the session fetch's |
| `Session.Store.GetWebauthnSession` | session/session.go:46-63 | returns the fetch error, ErrMarshal or the decode error, or the stored data; only a successful read deletes the key, and the deletion never reaches the response |
| `Session.Store.Set` | session/session.go:65-74 | when the session can be fetched, the key maps to the value, no other key or session changes and nil is returned whatever saving does; the response carries the values only if saving succeeds |
| `Session.New` | session/session.go:23-36 | no key pairs: exactly one generated key of 32 bytes, or the generator's error; supplied key pairs are kept unchanged |
| `Session.GenerateSecureKey` | session/session.go:76-87 | the buffer has n bytes filled from the random source; the read error is returned, else ErrInsufficientBytesRead when fewer than n bytes were read |
| `Authn.RegistrationVerdict` | authn.go:78-104 | registration succeeds exactly when the session was read, its user ID names a user, the engine verifies, and no user holds the credential; success names that user and credential |
| `Authn.Registered` | authn.go:106-107 | appending a credential changes only its user, whose credentials grow by it at the end |
| `Authn.LoginVerdict` | authn.go:159-180 | login succeeds exactly when the session was read, its user ID names a user and the engine verifies; success names that user |
| `Authn.RegistrationChecksInOrder` | authn.go:77-98 | the first failing check decides the error, and the engine does not affect the outcome before the user is found |
| `Authn.RegistrationKeepsCredentialIDsUnique` | authn.go:100-107 | a successful registration keeps every credential ID held by at most one user, at one position |
| `Authn.SameCredentialRegistersOnce` | authn.go:100-104 | after a successful registration its credential is held, so the next registration cannot succeed with that credential ID |
| `Authn.HeldSurvivesRegistration` | authn.go:106-107 | appending a credential to a user leaves every held credential held |
| `Authn.HeldSurvivesNewAccount` | users.go:78-79 | adding a user under an unused ID leaves every held credential held |
| `Authn.HeldCredentialRefusedLater` | authn.go:100-104 | a held credential stays held through any sequence of registrations and new users, so no later registration can succeed with that credential ID |
| `Authn.RegistrationCeremonyCreditsBeginner` | authn.go:52-94 | state stored by BeginRegistration leads FinishRegistration to the user who began, and it succeeds when the engine verifies an unheld credential |
| `Authn.LoginCeremonyCreditsBeginner` | authn.go:135-176 | state stored by BeginLogin leads FinishLogin to the user who began, and it succeeds when the engine verifies the assertion |
| `Authn.RegistrationStateNotReadByLogin` | authn.go:160 | FinishLogin never reads the state BeginRegistration stored |
| `Authn.LoginStateNotReadByRegistration` | authn.go:78 | FinishRegistration never reads the state BeginLogin stored |
| `Authn.FindOrCreateUser` | authn.go:32-45 | a new email gets a fresh user with no credentials; a registered email keeps the store unchanged and yields its user; the store grows by at most one |
| `Authn.BeginRegistrationCeremony` | authn.go:47-67 | the engine gets the user's exact exclude list; its failure is a 500 with the session untouched; its state is saved under "registration" and its options returned unless the session cannot be fetched |
| `Authn.BeginRegistrationFor` | authn.go:32-67 | a well-formed form finds or creates the user and begins the ceremony for that user, keeping the registry invariants |
| `Authn.BeginRegistration` | authn.go:18-68 | keeps the registry consistent with every credential ID held once, every user being the same object as before or the newly created one; rejects an unbound form and an empty email or name with nothing changed; otherwise the email is registered, the engine gets the user's exact exclude list, its failure is a 500 with the session untouched, and its state is saved under "registration" |
| `Authn.FinishRegistrationFor` | authn.go:85-108 | once the session data is read, replies as the verdict decides and appends the credential only on success, keeping every credential ID held once |
| `Authn.RegistrationCeremony` | authn.go:18-109 | a client's BeginRegistration request can be followed by its FinishRegistration request, which may update the user the first one created; the registry stays consistent with every credential ID held once, and a well-formed form leaves its email registered |
| `Authn.FinishRegistration` | authn.go:70-109 | keeps the registry consistent with every credential ID held once; replies as the verdict on the prior store and session decides; success appends the credential to the session's user and changes no one else; failure changes no user; the "registration" key is consumed |
| `Authn.BeginLogin` | authn.go:115-150 | rejects an unbound form, an empty email and an unregistered email; never changes the store; saves the engine's state under "authentication" |
| `Authn.FinishLogin` | authn.go:152-181 | replies as the login verdict decides, never changes the store, and consumes the "authentication" key |
| `Configuration.Config.Validate` | config/config.go:59-64 | a mode is accepted exactly when it is "release", "debug" or "test"; otherwise the error names it |
| `Common.Quote` | config/config.go:61 | `%q` renders the mode between double quotes |
| `Common.EscapeRoundTrip` | config/config.go:61 | the escaped text between the quotes reads back as exactly the mode, so the error message names the mode it rejected |
| `Common.EscapeAppend` | config/config.go:61 | `%q` escapes character by character: the escape of a concatenation is the concatenation of the escapes |
| `Common.QuoteEscapesQuote` | config/config.go:61 | every double quote inside the mode is written with a backslash before it, and the text on either side is escaped on its own |
| `Configuration.New` | config/config.go:38-49 | a loading or validation failure gives the zero config (IsZero) with the error; success gives the loaded config marked processed (not IsZero) and valid |
| `Configuration.NewIsZeroExactlyOnError` | config/config.go:52-54 | what `New` returns counts as zero exactly when it comes with an error |
| `Configuration.ZeroConfigIsInvalid` | config/config.go:52-54 | the zero config is unprocessed and fails validation |
| `Configuration.TLSConfig.Config` | config/config.go:70-80 | no TLS settings exactly when UseTLS is false; otherwise the one key pair from the configured files |
| `Yubikey.UnspecifiedForms` | yubikey.go:215 | an IP is unspecified exactly when it is 0.0.0.0 (4- or 16-byte form) or :: |
| `Yubikey.BoundURL` | yubikey.go:203-218 | the scheme is https exactly when TLS is configured; the host is 127.0.0.1 with the port for an unspecified TCP address, else the address text |
| `Yubikey.LoopbackHostKeepsPort` | yubikey.go:215-217 | the loopback host is "127.0.0.1:" followed by digits that read back as the bound port |
| `Yubikey.FoldErrors` | yubikey.go:174-181 | no errors give nil, one gives that error, more give a count summary "<n> errors occurred during shutdown" |
| `Yubikey.Server.constructor` | yubikey.go:51-56 | a new server is neither healthy nor ready, has no URL, and its TLS settings and relying party come from its config |
| `Yubikey.Server.SetStatus` | yubikey.go:187-193 | healthy and ready take exactly the given values; nothing else changes |
| `Yubikey.Server.SetURL` | yubikey.go:203-218 | the URL is the bound URL for the address; the flags are unchanged |
| `Yubikey.Server.Serve` | yubikey.go:110-151 | a bind failure returns the listen error with the server untouched; otherwise the bind precedes setting both flags true, then the start time and URL are recorded |
| `Yubikey.Server.Shutdown` | yubikey.go:161-182 | both flags go false before keep-alives are disabled and the HTTP shutdown runs; the result is the HTTP shutdown's error folded |
| `Yubikey.New` | yubikey.go:36-93 | a zero config is replaced by the loaded one and its error is returned; a built server starts unhealthy and not ready, with an empty registry built with the given UUID parser and a processed config, and its WebAuthn module uses the configured RPID, display name and origins |
| `Yubikey.ServeThenShutdown` | yubikey.go:129-170 | a server that binds and then shuts down ends down, having set its flags true after binding and false before the HTTP shutdown |

## Left out

- Locking. The `sync.RWMutex` locking in users.go and yubikey.go is left out: the model is sequential, one handler call at a time. The check-then-append in FinishRegistration (authn.go:101-107) is not atomic in the code, and the model does not capture races between requests.
- The go-webauthn library. It is an abstract engine (`Authn.Engine`): challenge generation, attestation and assertion verification are not modelled. The registration options are passed through unchanged.
- Signature counters. FinishLogin discards the verified credential, so the model has no counter check and no counter update.
- JSON. `c.BindJSON`, `c.JSON` and the JSON encoding of session data are outside the model. A bound form is an `Option`, a reply is a status with a body, and session data uses a framing with a proved round trip.
- Cookies. The gorilla cookie store's signing, encryption and cookie attributes are left out. A request carries the session values its cookies decode to and, for each session name whose cookie fails to decode, the codec's error. The texts of those errors come from the codec and are not modelled.
- Replay protection. None is claimed. `GetWebauthnSession`'s deletion is never saved, so the client's cookie still holds the consumed state.
- `Users.CredentialExists`. Its definition is not among the files this model covers. The model uses "some user holds a credential with this ID", an assumption.
- `uuid.Parse`. It is a function the registry is built with. `uuid.New()` is a parameter, assumed to be version 4 and not to collide with an existing user.
- `Authn.FindOrCreateUser`. It does not model the code's two other error branches: a NewUser error other than ErrUserAlreadyExists, and GetUser failing after it. Under the registry's consistency invariant neither can occur.
- The log level. `GetLogLevel` (config/config.go:66-68) is left out. The zerolog level conversion and all logging setup (yubikey.go:25-34, 44-48) are left out.
- Configuration loading. Loading from the environment (confire) and the struct-tag defaults are a parameter of `Configuration.New`.
- TLS keys. Loading the TLS key pair from its files is represented by the pair of file names. The panic on a load failure is not modelled.
- The rest of `Serve`. Signal handling, the serving goroutine, the error channel and `http.Server` construction are left out. The bounded shutdown wait (a 35-second context) is not modelled.
- Yubikey.Server.Serve: the model stops where the code starts serving, with both flags true. `exit` stands for what later arrives on the error channel (yubikey.go:150); by then a shutdown (yubikey.go:114-117, 161-170) may already have cleared the flags, which the postcondition does not describe.
- `Common.Quote`: only ASCII is escaped the way `strconv.Quote` does it. Unprintable non-ASCII characters and invalid UTF-8, which Go writes as `\u`, `\U` or `\x` escapes, are kept unchanged.
- UserRegistry.User.WebAuthnIcon: the icon is the constant empty string (users.go:157), so no property is stated about it.
- UserRegistry.User.WebAuthnName, UserRegistry.User.WebAuthnDisplayName and UserRegistry.User.WebAuthnCredentials: these accessors return a field each. Their meaning is stated through `User.View`, `Users.WebAuthnNameFindsUser` and `Users.WebAuthnIDFindsUser`.
- `Server.URL()`, the router and routes (routes.go), rendering, middleware, the command-line program and the API reply structs are not part of this model.
- Integers. Ports and byte counts are unbounded integers, with no Go `int` overflow.

=== FILE: authn.dfy ===
/**
 * The registration and login ceremony handlers (authn.go). The two finish
 * handlers are proved against a verdict function of the state before the
 * call: what the reply is, and how the user store and the request's
 * sessions change. The two begin handlers state their outcome directly:
 * the store change, the engine call and the session write.
 * The go-webauthn engine is a parameter: four functions that may succeed or
 * fail on any input.
 */
module Authn {
  import opened Common
  import opened UserRegistry
  import opened Session

  /** The session keys of the two ceremonies. */
  const RegistrationKey := "registration"
  const AuthenticationKey := "authentication"

  const StatusOK := 200
  const StatusBadRequest := 400
  const StatusInternalServerError := 500

  /** The credential creation or request options, returned verbatim to the client. */
  type Options = seq<byte>

  /** The raw body of a finish request: the authenticator's response. */
  type Response = seq<byte>

  /** What the engine returns when a ceremony begins: options for the client, state for the session. */
  datatype Ceremony = Ceremony(options: Options, session: SessionData)

  /**
   * The go-webauthn relying party. `beginRegistration` receives the user and
   * the exclude list the handler's option function installs.
   */
  datatype Engine = Engine(
    beginRegistration: (Account, seq<CredentialDescriptor>) -> Result<Ceremony, Error>,
    finishRegistration: (Account, SessionData, Response) -> Result<Credential, Error>,
    beginLogin: Account -> Result<Ceremony, Error>,
    finishLogin: (Account, SessionData, Response) -> Result<Credential, Error>)

  datatype RegistrationForm = RegistrationForm(email: string, name: string)
  datatype LoginForm = LoginForm(email: string)

  /** The status code and JSON body a handler writes. */
  datatype Reply = Reply(status: int, body: ReplyBody)
  datatype ReplyBody = ErrorBody(error: string) | OptionsBody(options: Options) | MessageBody(message: string)

  function BadRequest(text: string): Reply {
    Reply(StatusBadRequest, ErrorBody(text))
  }

  function InternalError(text: string): Reply {
    Reply(StatusInternalServerError, ErrorBody(text))
  }

  // ---------------------------------------------------------------------
  // Verdicts: the decisions of the finish handlers on the state before the call

  /**
   * FinishRegistration's checks, in order: the session was read, its user ID
   * names a user, the engine verified the response, and no user holds the
   * new credential yet. Success carries the user's ID and the credential.
   */
  function RegistrationVerdict(accounts: map<UUID, Account>, read: Result<SessionData, Error>,
                               engine: Engine, response: Response): (v: Result<(UUID, Credential), Error>)
    ensures v.Success? <==>
      && read.Success? && |read.value.userID| == 16 && read.value.userID in accounts
      && engine.finishRegistration(accounts[read.value.userID], read.value, response).Success?
      && !CredentialHeld(accounts, engine.finishRegistration(accounts[read.value.userID], read.value, response).value.id)
    ensures v.Success? ==>
      && v.value.0 == read.value.userID
      && v.value.1 == engine.finishRegistration(accounts[read.value.userID], read.value, response).value
  {
    if read.Failure? then Failure(read.error)
    else
      var id := FromBytes(read.value.userID);
      if id.Failure? then Failure(id.error)
      else if id.value !in accounts then Failure(UserNotFound)
      else
        var verified := engine.finishRegistration(accounts[id.value], read.value, response);
        if verified.Failure? then Failure(verified.error)
        else if CredentialHeld(accounts, verified.value.id) then Failure(CredentialAlreadyAssigned)
        else Success((id.value, verified.value))
  }

  /** The accounts after `cred` is appended to the user `id`. */
  function Registered(accounts: map<UUID, Account>, id: UUID, cred: Credential): (after: map<UUID, Account>)
    requires id in accounts
    ensures after.Keys == accounts.Keys
    ensures forall k :: k in accounts && k != id ==> after[k] == accounts[k]
    ensures after[id].id == accounts[id].id && after[id].name == accounts[id].name && after[id].email == accounts[id].email
    ensures after[id].credentials == accounts[id].credentials + [cred]
  {
    accounts[id := accounts[id].(credentials := accounts[id].credentials + [cred])]
  }

  /**
   * FinishLogin's checks, in order: the session was read, its user ID names
   * a user, and the engine verified the assertion. Success carries the user's ID.
   */
  function LoginVerdict(accounts: map<UUID, Account>, read: Result<SessionData, Error>,
                        engine: Engine, response: Response): (v: Result<UUID, Error>)
    ensures v.Success? <==>
      && read.Success? && |read.value.userID| == 16 && read.value.userID in accounts
      && engine.finishLogin(accounts[read.value.userID], read.value, response).Success?
    ensures v.Success? ==> v.value == read.value.userID
  {
    if read.Failure? then Failure(read.error)
    else
      var id := FromBytes(read.value.userID);
      if id.Failure? then Failure(id.error)
      else if id.value !in accounts then Failure(UserNotFound)
      else
        var verified := engine.finishLogin(accounts[id.value], read.value, response);
        if verified.Failure? then Failure(verified.error)
        else Success(id.value)
  }

  // ---------------------------------------------------------------------
  // Properties of the verdicts

  /** The first check that fails decides the error; the engine is not consulted before the user is found. */
  lemma RegistrationChecksInOrder(accounts: map<UUID, Account>, read: Result<SessionData, Error>,
                                  engine: Engine, other: Engine, response: Response)
    ensures read.Failure? ==> RegistrationVerdict(accounts, read, engine, response) == Failure(read.error)
    ensures read.Success? && |read.value.userID| != 16 ==>
      RegistrationVerdict(accounts, read, engine, response) == Failure(InvalidUUIDLength(|read.value.userID|))
    ensures read.Success? && |read.value.userID| == 16 && read.value.userID !in accounts ==>
      RegistrationVerdict(accounts, read, engine, response) == Failure(UserNotFound)
    ensures (read.Failure? || |read.value.userID| != 16 || read.value.userID !in accounts) ==>
      RegistrationVerdict(accounts, read, engine, response) == RegistrationVerdict(accounts, read, other, response)
    ensures read.Success? && read.value.userID in accounts &&
            engine.finishRegistration(accounts[read.value.userID], read.value, response).Failure? ==>
      RegistrationVerdict(accounts, read, engine, response) ==
        Failure(engine.finishRegistration(accounts[read.value.userID], read.value, response).error)
  {
  }

  /** A registration that passes its checks keeps every credential ID held at most once. */
  lemma RegistrationKeepsCredentialIDsUnique(accounts: map<UUID, Account>, read: Result<SessionData, Error>,
                                             engine: Engine, response: Response)
    requires CredentialIDsUnique(accounts)
    requires RegistrationVerdict(accounts, read, engine, response).Success?
    ensures var (id, cred) := RegistrationVerdict(accounts, read, engine, response).value;
      id in accounts && CredentialIDsUnique(Registered(accounts, id, cred))
  {
    var (id, cred) := RegistrationVerdict(accounts, read, engine, response).value;
    var after := Registered(accounts, id, cred);
    var n := |accounts[id].credentials|;
    assert !CredentialHeld(accounts, cred.id);
    forall a, b, i, j
      ensures a in after && b in after &&
              0 <= i < |after[a].credentials| && 0 <= j < |after[b].credentials| &&
              after[a].credentials[i].id == after[b].credentials[j].id
              ==> a == b && i == j
    {
      if a in after && b in after && 0 <= i < |after[a].credentials| && 0 <= j < |after[b].credentials| {
        assert after[a].credentials[i] == if a == id && i == n then cred else accounts[a].credentials[i];
        assert after[b].credentials[j] == if b == id && j == n then cred else accounts[b].credentials[j];
      }
    }
  }

  /**
   * After a successful registration the credential is held, so a second
   * registration presenting the same credential ID is refused.
   */
  lemma SameCredentialRegistersOnce(accounts: map<UUID, Account>, read: Result<SessionData, Error>,
                                    engine: Engine, response: Response,
                                    read2: Result<SessionData, Error>, engine2: Engine, response2: Response)
    requires RegistrationVerdict(accounts, read, engine, response).Success?
    ensures var (id, cred) := RegistrationVerdict(accounts, read, engine, response).value;
      && id in accounts
      && CredentialHeld(Registered(accounts, id, cred), cred.id)
      && var second := RegistrationVerdict(Registered(accounts, id, cred), read2, engine2, response2);
         second.Success? ==> second.value.1.id != cred.id
  {
    var (id, cred) := RegistrationVerdict(accounts, read, engine, response).value;
    var after := Registered(accounts, id, cred);
    var n := |accounts[id].credentials|;
    assert after[id].credentials[n] == cred;
    assert CredentialHeld(after, cred.id);
  }

  /** A credential that is held stays held when another credential is registered. */
  lemma HeldSurvivesRegistration(accounts: map<UUID, Account>, id: UUID, cred: Credential, credID: seq<byte>)
    requires id in accounts && CredentialHeld(accounts, credID)
    ensures CredentialHeld(Registered(accounts, id, cred), credID)
  {
    var k, i :| k in accounts && 0 <= i < |accounts[k].credentials| && accounts[k].credentials[i].id == credID;
    var after := Registered(accounts, id, cred);
    assert after[k].credentials[i] == accounts[k].credentials[i];
  }

  /** A credential that is held stays held when an account is added under an unused ID. */
  lemma HeldSurvivesNewAccount(accounts: map<UUID, Account>, id: UUID, account: Account, credID: seq<byte>)
    requires id !in accounts && CredentialHeld(accounts, credID)
    ensures CredentialHeld(accounts[id := account], credID)
  {
    var k, i :| k in accounts && 0 <= i < |accounts[k].credentials| && accounts[k].credentials[i].id == credID;
    assert accounts[id := account][k] == accounts[k];
  }

  /**
   * The ways the handlers change the store: FinishRegistration appends a
   * credential to an existing account, BeginRegistration (through NewUser)
   * adds an account under an unused ID. The login handlers change nothing.
   */
  datatype StoreChange = CredentialAdded(id: UUID, cred: Credential) | AccountAdded(id: UUID, account: Account)

  /** The accounts after a sequence of changes; none when a change does not apply. */
  function AfterChanges(accounts: map<UUID, Account>, changes: seq<StoreChange>): Option<map<UUID, Account>>
    decreases |changes|
  {
    if changes == [] then Some(accounts)
    else
      match changes[0]
      case CredentialAdded(id, cred) =>
        if id in accounts then AfterChanges(Registered(accounts, id, cred), changes[1..]) else None
      case AccountAdded(id, account) =>
        if id !in accounts then AfterChanges(accounts[id := account], changes[1..]) else None
  }

  /**
   * Once held, a credential ID is refused by every later registration,
   * whatever registrations and new users come in between.
   */
  lemma {:induction false} HeldCredentialRefusedLater(accounts: map<UUID, Account>, changes: seq<StoreChange>,
                                                      credID: seq<byte>, read: Result<SessionData, Error>,
                                                      engine: Engine, response: Response)
    requires CredentialHeld(accounts, credID) && AfterChanges(accounts, changes).Some?
    ensures CredentialHeld(AfterChanges(accounts, changes).value, credID)
    ensures var later := RegistrationVerdict(AfterChanges(accounts, changes).value, read, engine, response);
      later.Success? ==> later.value.1.id != credID
    decreases |changes|
  {
    if changes != [] {
      match changes[0]
      case CredentialAdded(id, cred) =>
        HeldSurvivesRegistration(accounts, id, cred, credID);
        HeldCredentialRefusedLater(Registered(accounts, id, cred), changes[1..], credID, read, engine, response);
      case AccountAdded(id, account) =>
        HeldSurvivesNewAccount(accounts, id, account, credID);
        HeldCredentialRefusedLater(accounts[id := account], changes[1..], credID, read, engine, response);
    }
  }

  /**
   * A registration ceremony credits the user who began it: when the engine
   * binds the session to the user's handle, the session state that
   * BeginRegistration stored leads FinishRegistration to that same user, and
   * it succeeds whenever the engine verifies a credential nobody holds.
   */
  lemma RegistrationCeremonyCreditsBeginner(accounts: map<UUID, Account>, id: UUID, vals: map<string, Value>,
                                            engine: Engine, response: Response)
    requires id in accounts && accounts[id].id == id
    requires engine.beginRegistration(accounts[id], ExcludeList(accounts[id].credentials)).Success?
    requires engine.beginRegistration(accounts[id], ExcludeList(accounts[id].credentials)).value.session.userID == accounts[id].id
    ensures var state := engine.beginRegistration(accounts[id], ExcludeList(accounts[id].credentials)).value.session;
      var read := DecodeEntry(vals[RegistrationKey := BytesValue(MarshalSession(state))], RegistrationKey);
      var verdict := RegistrationVerdict(accounts, read, engine, response);
      && (verdict.Success? ==> verdict.value.0 == id)
      && (engine.finishRegistration(accounts[id], state, response).Success? &&
          !CredentialHeld(accounts, engine.finishRegistration(accounts[id], state, response).value.id)
          ==> verdict.Success?)
  {
    var state := engine.beginRegistration(accounts[id], ExcludeList(accounts[id].credentials)).value.session;
    SavedSessionReadsBack(vals, RegistrationKey, state);
  }

  /**
   * A login ceremony credits the user who began it: when the engine binds
   * the session to the user's handle, the session state that BeginLogin
   * stored leads FinishLogin to that same user, and it succeeds whenever the
   * engine verifies the assertion.
   */
  lemma LoginCeremonyCreditsBeginner(accounts: map<UUID, Account>, id: UUID, vals: map<string, Value>,
                                     engine: Engine, response: Response)
    requires id in accounts && accounts[id].id == id
    requires engine.beginLogin(accounts[id]).Success?
    requires engine.beginLogin(accounts[id]).value.session.userID == accounts[id].id
    ensures var state := engine.beginLogin(accounts[id]).value.session;
      var read := DecodeEntry(vals[AuthenticationKey := BytesValue(MarshalSession(state))], AuthenticationKey);
      var verdict := LoginVerdict(accounts, read, engine, response);
      && (verdict.Success? ==> verdict.value == id)
      && (engine.finishLogin(accounts[id], state, response).Success? ==> verdict.Success?)
  {
    var state := engine.beginLogin(accounts[id]).value.session;
    SavedSessionReadsBack(vals, AuthenticationKey, state);
  }

  /** State stored by BeginRegistration is never what FinishLogin reads. */
  lemma RegistrationStateNotReadByLogin(vals: map<string, Value>, state: SessionData)
    requires AuthenticationKey !in vals
    ensures DecodeEntry(vals[RegistrationKey := BytesValue(MarshalSession(state))], AuthenticationKey) == Failure(Marshal)
  {
    OtherKeysUnaffected(vals, RegistrationKey, AuthenticationKey, BytesValue(MarshalSession(state)));
  }

  /** State stored by BeginLogin is never what FinishRegistration reads. */
  lemma LoginStateNotReadByRegistration(vals: map<string, Value>, state: SessionData)
    requires RegistrationKey !in vals
    ensures DecodeEntry(vals[AuthenticationKey := BytesValue(MarshalSession(state))], RegistrationKey) == Failure(Marshal)
  {
    OtherKeysUnaffected(vals, AuthenticationKey, RegistrationKey, BytesValue(MarshalSession(state)));
  }

  // ---------------------------------------------------------------------
  // The handlers

  /**
   * How BeginRegistration leaves the registry for a well-formed form: the
   * email is registered afterwards; a known email changes nothing; a new
   * email adds the account `newID` with no credentials; at most one user
   * is added, and every user is either the same object as before or a
   * newly allocated one.
   */
  twostate predicate FoundOrCreated(users: Users, name: string, email: string, newID: UUID)
    reads users, users.users.Values
  {
    && email in users.emails
    && (email in old(users.emails) ==> users.users == old(users.users) && users.emails == old(users.emails))
    && (email !in old(users.emails) ==>
          && users.emails == old(users.emails)[email := newID]
          && users.Accounts() == old(users.Accounts())[newID := Account(newID, name, email, [])])
    && |users.users| <= |old(users.users)| + 1
    && forall k | k in users.users :: (k in old(users.users) && users.users[k] == old(users.users)[k]) || fresh(users.users[k])
  }

  /**
   * How a registration ceremony begun for `user` ends: an engine failure is
   * an internal error and stores nothing; otherwise the engine's session
   * data is stored under "registration" and the options are returned,
   * unless the cookie session could not be read.
   */
  twostate predicate RegistrationBegun(req: Request, engine: Engine, new user: User, saveOk: bool, reply: Reply)
    reads req, user
  {
    var begun := engine.beginRegistration(user.View(), ExcludeList(user.credentials));
    && (begun.Failure? ==> reply == InternalError("could not begin webauthn registration") && unchanged(req))
    && (begun.Success? ==>
          && StoredInSession(req, RegistrationKey, BytesValue(MarshalSession(begun.value.session)), saveOk)
          && reply == if old(req.Fetch(WebauthnSession)).Failure? then InternalError("could not begin webauthn registration")
                      else Reply(StatusOK, OptionsBody(begun.value.options)))
  }

  /**
   * The find-or-create step of BeginRegistration: a new user for a new
   * email, otherwise the user already registered under it. NewUser fails
   * only with ErrUserAlreadyExists, and the email is then registered, so
   * GetUser finds its user: the source's two other error branches cannot
   * be taken and are not modelled.
   */
  method FindOrCreateUser(users: Users, name: string, email: string, newID: UUID) returns (user: User)
    requires users.Valid() && users.CredentialsUnique()
    requires IsVersion4(newID) && newID !in users.users
    modifies users
    ensures users.Valid() && users.CredentialsUnique()
    ensures FoundOrCreated(users, name, email, newID)
    ensures user == users.users[users.emails[email]]
    ensures email !in old(users.emails) ==>
      && users.users == old(users.users)[newID := user]
      && fresh(user) && user.ID == newID && user.Name == name && user.Email == email && user.credentials == []
  {
    var created := users.NewUser(name, email, newID);
    if created.Success? {
      user := created.value;
      assert users.users.Keys == old(users.users).Keys + {newID};
    } else {
      user := users.GetUser(email).value;
    }
  }

  /**
   * `newID` is the UUID the registry generates for a new user on this call;
   * `form` is the bound JSON body (None when binding fails); `saveOk` is
   * whether the session cookie is written.
   */
  method BeginRegistration(users: Users, store: Store, engine: Engine, req: Request,
                           form: Option<RegistrationForm>, newID: UUID, saveOk: bool) returns (reply: Reply)
    requires users.Valid() && users.CredentialsUnique()
    requires IsVersion4(newID) && newID !in users.users
    modifies users, req
    ensures users.Valid() && users.CredentialsUnique()
    ensures form.None? ==>
      reply == BadRequest("could not bind registration form") && unchanged(users) && unchanged(req)
    ensures form.Some? && (form.value.email == "" || form.value.name == "") ==>
      reply == BadRequest("missing either name or email address") && unchanged(users) && unchanged(req)
    ensures form.Some? && form.value.email != "" && form.value.name != "" ==>
      && FoundOrCreated(users, form.value.name, form.value.email, newID)
      && RegistrationBegun(req, engine, users.users[users.emails[form.value.email]], saveOk, reply)
  {
    if form.None? {
      return BadRequest("could not bind registration form");
    }
    var f := form.value;
    if f.email == "" || f.name == "" {
      return BadRequest("missing either name or email address");
    }

    reply := BeginRegistrationFor(users, store, engine, req, f.name, f.email, newID, saveOk);
  }

  /** BeginRegistration once the form has a name and an email. */
  method BeginRegistrationFor(users: Users, store: Store, engine: Engine, req: Request,
                              name: string, email: string, newID: UUID, saveOk: bool) returns (reply: Reply)
    requires users.Valid() && users.CredentialsUnique()
    requires IsVersion4(newID) && newID !in users.users
    modifies users, req
    ensures users.Valid() && users.CredentialsUnique()
    ensures FoundOrCreated(users, name, email, newID)
    ensures RegistrationBegun(req, engine, users.users[users.emails[email]], saveOk, reply)
  {
    // Find or create a new user
    var user := FindOrCreateUser(users, name, email, newID);
    label Found:
    assert old(req.Fetch(WebauthnSession)) == old@Found(req.Fetch(WebauthnSession));

    reply := BeginRegistrationCeremony(store, engine, req, user, saveOk);
  }

  /**
   * The second half of BeginRegistration, once the user is known: the
   * engine is called with the user's exclude list and its state is stored
   * under "registration". Only the request's sessions change.
   */
  method BeginRegistrationCeremony(store: Store, engine: Engine, req: Request, user: User, saveOk: bool)
    returns (reply: Reply)
    modifies req
    ensures RegistrationBegun(req, engine, user, saveOk, reply)
  {
    // Ensure the same authenticator cannot be registered twice
    var exclude := user.CredentialExcludeList();
    var begun := engine.beginRegistration(user.View(), exclude);
    if begun.Failure? {
      return InternalError("could not begin webauthn registration");
    }

    // Session values must be stored
    var err := store.SaveWebauthnSession(RegistrationKey, begun.value.session, req, saveOk);
    if err.Some? {
      return InternalError("could not begin webauthn registration");
    }
    reply := Reply(StatusOK, OptionsBody(begun.value.options));
  }

  method FinishRegistration(users: Users, store: Store, engine: Engine, req: Request, response: Response)
    returns (reply: Reply)
    requires users.Valid() && users.CredentialsUnique()
    modifies users.users.Values, req
    ensures users.Valid() && users.CredentialsUnique()
    ensures ConsumedFromSession(req, RegistrationKey)
    ensures var verdict := RegistrationVerdict(old(users.Accounts()), old(req.ReadSession(RegistrationKey)), engine, response);
      && (verdict.Success? ==>
            && reply == Reply(StatusOK, MessageBody("registration successful"))
            && users.Accounts() == Registered(old(users.Accounts()), verdict.value.0, verdict.value.1))
      && (verdict.Failure? ==>
            && reply == BadRequest(Message(verdict.error))
            && users.Accounts() == old(users.Accounts()))
  {
    ghost var before := users.Accounts();
    ghost var stored := req.ReadSession(RegistrationKey);

    // Load the session data
    var read := store.GetWebauthnSession(RegistrationKey, req);
    assert users.Accounts() == before;
    if read.Failure? {
      return BadRequest(Message(read.error));
    }
    reply := FinishRegistrationFor(users, engine, read.value, response);
  }

  /** FinishRegistration once the registration session data has been read. */
  method FinishRegistrationFor(users: Users, engine: Engine, session: SessionData, response: Response)
    returns (reply: Reply)
    requires users.Valid() && users.CredentialsUnique()
    modifies users.users.Values
    ensures users.Valid() && users.CredentialsUnique()
    ensures var verdict := RegistrationVerdict(old(users.Accounts()), Success(session), engine, response);
      && (verdict.Success? ==>
            && reply == Reply(StatusOK, MessageBody("registration successful"))
            && users.Accounts() == Registered(old(users.Accounts()), verdict.value.0, verdict.value.1))
      && (verdict.Failure? ==>
            && reply == BadRequest(Message(verdict.error))
            && users.Accounts() == old(users.Accounts()))
  {
    ghost var before := users.Accounts();

    // Load the user from the session user ID
    var found := users.Lookup(BytesID(session.userID));
    if found.Failure? {
      return BadRequest(Message(found.error));
    }
    var user := found.value;
    var id := user.ID;
    assert user.View() == before[id];

    var verified := engine.finishRegistration(user.View(), session, response);
    if verified.Failure? {
      return BadRequest(Message(verified.error));
    }
    var credential := verified.value;

    // Check to make sure the credential is not already assigned to a user.
    if users.CredentialExists(credential) {
      return BadRequest(Message(CredentialAlreadyAssigned));
    }

    // Add the credential to the user
    user.AddCredential(credential);
    forall k | k in users.users && k != id
      ensures users.users[k] != user
    {
      assert users.users[k].ID == k;
    }
    assert users.Accounts() == Registered(before, id, credential);
    RegistrationKeepsCredentialIDsUnique(before, Success(session), engine, response);
    reply := Reply(StatusOK, MessageBody("registration successful"));
  }

  /**
   * One client's registration: its BeginRegistration request, then its
   * FinishRegistration request carrying the cookie the first one set. The
   * user BeginRegistration creates is one FinishRegistration may update.
   */
  method RegistrationCeremony(users: Users, store: Store, engine: Engine,
                              begin: Request, form: Option<RegistrationForm>, newID: UUID, saveOk: bool,
                              finish: Request, response: Response) returns (begun: Reply, finished: Reply)
    requires users.Valid() && users.CredentialsUnique()
    requires IsVersion4(newID) && newID !in users.users
    modifies users, users.users.Values, begin, finish
    ensures users.Valid() && users.CredentialsUnique()
    ensures form.Some? && form.value.email != "" && form.value.name != "" ==> form.value.email in users.emails
  {
    begun := BeginRegistration(users, store, engine, begin, form, newID, saveOk);
    ghost var emails := users.emails;
    finished := FinishRegistration(users, store, engine, finish, response);
    assert users.emails == emails;
  }

  method BeginLogin(users: Users, store: Store, engine: Engine, req: Request, form: Option<LoginForm>, saveOk: bool)
    returns (reply: Reply)
    requires users.Valid()
    modifies req
    ensures form.None? ==> reply == BadRequest("could not bind login form") && unchanged(req)
    ensures form.Some? && form.value.email == "" ==> reply == BadRequest("email is required to login") && unchanged(req)
    ensures form.Some? && form.value.email != "" && form.value.email !in users.emails ==>
      reply == BadRequest(Message(UserNotFound)) && unchanged(req)
    ensures form.Some? && form.value.email != "" && form.value.email in users.emails ==>
      var begun := engine.beginLogin(users.Accounts()[users.emails[form.value.email]]);
      && (begun.Failure? ==> reply == InternalError(Message(begun.error)) && unchanged(req))
      && (begun.Success? ==>
            && StoredInSession(req, AuthenticationKey, BytesValue(MarshalSession(begun.value.session)), saveOk)
            && reply == match old(req.Fetch(WebauthnSession))
                        case Failure(e) => InternalError(Message(e))
                        case Success(_) => Reply(StatusOK, OptionsBody(begun.value.options)))
  {
    if form.None? {
      return BadRequest("could not bind login form");
    }
    var f := form.value;
    if f.email == "" {
      return BadRequest("email is required to login");
    }

    // Look up user
    var found := users.GetUser(f.email);
    if found.Failure? {
      return BadRequest(Message(found.error));
    }
    var user := found.value;

    var begun := engine.beginLogin(user.View());
    if begun.Failure? {
      return InternalError(Message(begun.error));
    }

    var err := store.SaveWebauthnSession(AuthenticationKey, begun.value.session, req, saveOk);
    if err.Some? {
      return InternalError(Message(err.value));
    }
    reply := Reply(StatusOK, OptionsBody(begun.value.options));
  }

  method FinishLogin(users: Users, store: Store, engine: Engine, req: Request, response: Response)
    returns (reply: Reply)
    requires users.Valid()
    modifies req
    ensures ConsumedFromSession(req, AuthenticationKey)
    ensures var verdict := LoginVerdict(users.Accounts(), old(req.ReadSession(AuthenticationKey)), engine, response);
      && (verdict.Success? ==> reply == Reply(StatusOK, MessageBody("login successful")))
      && (verdict.Failure? ==> reply == BadRequest(Message(verdict.error)))
  {
    // Load the session data
    var read := store.GetWebauthnSession(AuthenticationKey, req);
    if read.Failure? {
      return BadRequest(Message(read.error));
    }
    var session := read.value;

    // Load the user from the session user ID
    var found := users.Lookup(BytesID(session.userID));
    if found.Failure? {
      return BadRequest(Message(found.error));
    }
    var user := found.value;
    assert user.View() == users.Accounts()[user.ID];

    // The verified credential (and its sign counter) is discarded
    var verified := engine.finishLogin(user.View(), session, response);
    if verified.Failure? {
      return BadRequest(Message(verified.error));
    }
    reply := Reply(StatusOK, MessageBody("login successful"));
  }
}

=== FILE: common.dfy ===
/**
 * Values shared by every package of the server: the failure-compatible
 * wrappers, bytes and 128-bit user identifiers, the error values the code
 * returns, and the decimal rendering that `%d` and error texts use.
 */
module Common {

  datatype Option<+T> = None | Some(value: T)

  datatype Result<+T, +E> = Success(value: T) | Failure(error: E)

  /** A Go `byte`. */
  type byte = x: int | 0 <= x < 256

  /** A `uuid.UUID`: an array of exactly 16 bytes. */
  type UUID = s: seq<byte> | |s| == 16 witness seq(16, _ => 0)

  /** `uuid.Nil`, the zero value of a UUID and of a missing map entry. */
  const NilUUID: UUID := seq(16, _ => 0)

  /** What `uuid.New()` produces: a random UUID with version 4 and the RFC 4122 variant bits. */
  predicate IsVersion4(u: UUID) {
    u[6] / 16 == 4 && u[8] / 64 == 2
  }

  lemma Version4IsNotNil(u: UUID)
    requires IsVersion4(u)
    ensures u != NilUUID
  {
    assert NilUUID[6] == 0;
  }

  /** `uuid.FromBytes`: a byte slice is a UUID exactly when it has 16 bytes. */
  function FromBytes(b: seq<byte>): (r: Result<UUID, Error>)
    ensures r.Success? <==> |b| == 16
    ensures r.Success? ==> r.value == b
    ensures r.Failure? ==> r.error == InvalidUUIDLength(|b|)
  {
    if |b| == 16 then Success(b) else Failure(InvalidUUIDLength(|b|))
  }

  /**
   * Every error value the modelled code returns. The first groups are the
   * sentinel errors the repository declares; `External` stands for an error
   * produced by a collaborator outside the model (the authenticator engine,
   * the cookie codec, the HTTP server, the environment loader), carried
   * with its text.
   */
  datatype Error =
    // users.go
    | UserNotFound
    | UserAlreadyExists
    | UnknownIDType
    // uuid.FromBytes
    | InvalidUUIDLength(got: nat)
    // session/errors.go
    | InsufficientBytesRead
    | Marshal
    // the literal reply of FinishRegistration when the credential is taken
    | CredentialAlreadyAssigned
    // config/config.go
    | InvalidMode(mode: string)
    // yubikey.go
    | ListenFailed(addr: string, cause: string)
    | ShutdownErrors(count: nat)
    | External(text: string)

  /** `err.Error()`: the text a handler puts in its JSON error field. */
  function Message(e: Error): string {
    match e
    case UserNotFound => "user not found"
    case UserAlreadyExists => "user already exists"
    case UnknownIDType => "unknown user ID type must be uuid"
    case InvalidUUIDLength(n) => "invalid UUID (got " + Decimal(n) + " bytes)"
    case InsufficientBytesRead => "insufficient bytes read"
    case Marshal => "error unmarshaling data"
    case CredentialAlreadyAssigned => "credential already assigned"
    case InvalidMode(m) => "invalid configuration: " + Quote(m) + " is not a valid gin mode"
    case ListenFailed(a, c) => "could not listen on bind addr " + a + ": " + c
    case ShutdownErrors(n) => Decimal(n) + " errors occurred during shutdown"
    case External(t) => t
  }

  // ---------------------------------------------------------------------
  // Decimal rendering, as `%d` prints an integer

  function DigitChar(d: nat): (c: char)
    requires d < 10
  {
    "0123456789"[d]
  }

  predicate IsDigit(c: char) {
    '0' <= c <= '9'
  }

  function DigitValue(c: char): (d: nat)
    requires IsDigit(c)
  {
    (c as int) - ('0' as int)
  }

  /** The digits of `n`, most significant first, without leading zeros. */
  function Digits(n: nat): (s: string)
    ensures |s| > 0 && forall i :: 0 <= i < |s| ==> IsDigit(s[i])
    ensures |s| > 1 ==> s[0] != '0'
  {
    if n < 10 then [DigitChar(n)] else Digits(n / 10) + [DigitChar(n % 10)]
  }

  /** `fmt.Sprintf("%d", n)`. */
  function Decimal(n: int): (s: string)
    ensures n >= 0 ==> s == Digits(n)
    ensures n < 0 ==> s == "-" + Digits(-n)
  {
    if n < 0 then "-" + Digits(-n) else Digits(n)
  }

  /** Reads a string of decimal digits back as a number. */
  function ParseDigits(s: string): nat
    requires forall i :: 0 <= i < |s| ==> IsDigit(s[i])
  {
    if |s| == 0 then 0 else 10 * ParseDigits(s[..|s| - 1]) + DigitValue(s[|s| - 1])
  }

  // ---------------------------------------------------------------------
  // Quoting, as `%q` prints a string

  function HexDigit(d: nat): (c: char)
    requires d < 16
  {
    "0123456789abcdef"[d]
  }

  /** The value of a lower-case hexadecimal digit, if `c` is one. */
  function HexValue(c: char): Option<nat> {
    if '0' <= c <= '9' then Some((c as int) - ('0' as int))
    else if 'a' <= c <= 'f' then Some((c as int) - ('a' as int) + 10)
    else None
  }

  /** The one-letter escapes of Go string literals, by the letter that follows the backslash. */
  function LetterEscape(letter: char): Option<char> {
    match letter
    case 'a' => Some(7 as char)
    case 'b' => Some(8 as char)
    case 'f' => Some(12 as char)
    case 'n' => Some('\n')
    case 'r' => Some('\r')
    case 't' => Some('\t')
    case 'v' => Some(11 as char)
    case _ => None
  }

  /**
   * How `strconv.Quote` writes one character: quote and backslash escaped,
   * the C control characters by their letters, other ASCII control
   * characters as \x and two hex digits, everything else as itself.
   */
  function EscapeChar(c: char): (e: string)
    ensures |e| > 0
  {
    if c == '"' || c == '\\' then ['\\', c]
    else if c == 7 as char then "\\a"
    else if c == 8 as char then "\\b"
    else if c == 12 as char then "\\f"
    else if c == '\n' then "\\n"
    else if c == '\r' then "\\r"
    else if c == '\t' then "\\t"
    else if c == 11 as char then "\\v"
    else if (c as int) < 32 || (c as int) == 127 then ['\\', 'x', HexDigit((c as int) / 16), HexDigit((c as int) % 16)]
    else [c]
  }

  function Escape(s: string): string {
    if s == [] then [] else EscapeChar(s[0]) + Escape(s[1..])
  }

  /** `fmt.Sprintf("%q", s)`: the string as a double-quoted Go literal. */
  function Quote(s: string): (q: string)
    ensures |q| >= 2 && q[0] == '"' && q[|q| - 1] == '"'
  {
    "\"" + Escape(s) + "\""
  }

  /** Reads the escapes of a Go string literal's body back into the characters they stand for. */
  function Unescape(t: string): Option<string>
    decreases |t|
  {
    if t == [] then Some([])
    else if t[0] != '\\' then
      match Unescape(t[1..])
      case Some(rest) => Some([t[0]] + rest)
      case None => None
    else if |t| < 2 then None
    else if t[1] == '"' || t[1] == '\\' then
      match Unescape(t[2..])
      case Some(rest) => Some([t[1]] + rest)
      case None => None
    else if LetterEscape(t[1]).Some? then
      match Unescape(t[2..])
      case Some(rest) => Some([LetterEscape(t[1]).value] + rest)
      case None => None
    else if t[1] == 'x' && |t| >= 4 && HexValue(t[2]).Some? && HexValue(t[3]).Some? then
      match Unescape(t[4..])
      case Some(rest) => Some([(HexValue(t[2]).value * 16 + HexValue(t[3]).value) as char] + rest)
      case None => None
    else None
  }

  lemma HexDigitValue(d: nat)
    requires d < 16
    ensures HexValue(HexDigit(d)) == Some(d)
  {
  }

  /** Escaping works character by character: the escape of a concatenation is the concatenation of the escapes. */
  lemma {:induction false} EscapeAppend(a: string, b: string)
    ensures Escape(a + b) == Escape(a) + Escape(b)
  {
    if a == [] {
      assert a + b == b;
    } else {
      assert (a + b)[0] == a[0];
      assert (a + b)[1..] == a[1..] + b;
      EscapeAppend(a[1..], b);
    }
  }

  /** Every double quote inside the mode is written with a backslash before it, as `%q` does. */
  lemma QuoteEscapesQuote(a: string, b: string)
    ensures Quote(a + "\"" + b) == "\"" + Escape(a) + "\\\"" + Escape(b) + "\""
  {
    var q := "\"";
    assert a + q + b == a + (q + b);
    EscapeAppend(a, q + b);
    EscapeAppend(q, b);
    assert Escape(q) == EscapeChar('"') + Escape([]);
    assert Escape(a + q + b) == Escape(a) + "\\\"" + Escape(b);
  }

  /** Unescaping one escaped character followed by anything gives that character in front. */
  lemma UnescapeChar(c: char, rest: string)
    ensures Unescape(EscapeChar(c) + rest) ==
      match Unescape(rest)
      case Some(r) => Some([c] + r)
      case None => None
  {
    var e := EscapeChar(c);
    var t := e + rest;
    if |e| == 1 {
      assert t[1..] == rest;
    } else if |e| == 2 {
      assert t[2..] == rest;
    } else {
      var n := c as int;
      HexDigitValue(n / 16);
      HexDigitValue(n % 16);
      assert t[4..] == rest;
      assert (n / 16 * 16 + n % 16) as char == c;
    }
  }

  /** Quoting loses nothing: the body of a quoted string unescapes to the original. */
  lemma {:induction false} EscapeRoundTrip(s: string)
    ensures Unescape(Escape(s)) == Some(s)
  {
    if s != [] {
      EscapeRoundTrip(s[1..]);
      UnescapeChar(s[0], Escape(s[1..]));
      assert [s[0]] + s[1..] == s;
    }
  }

  lemma DigitCharValue(d: nat)
    requires d < 10
    ensures IsDigit(DigitChar(d)) && DigitValue(DigitChar(d)) == d
  {
  }

  /** The decimal rendering of a number reads back as the same number. */
  lemma {:induction false} DigitsRoundTrip(n: nat)
    ensures ParseDigits(Digits(n)) == n
  {
    var s := Digits(n);
    if n < 10 {
      DigitCharValue(n);
      assert s[..|s| - 1] == [];
    } else {
      DigitsRoundTrip(n / 10);
      DigitCharValue(n % 10);
      assert s[..|s| - 1] == Digits(n / 10);
    }
  }
}

=== FILE: config.dfy ===
/**
 * The server's configuration (config/config.go): the values read from the
 * environment, the check that the router mode is one gin knows, the
 * `processed` mark that tells a loaded configuration from the zero value,
 * and the mappings into the TLS and WebAuthn library configurations.
 */
module Configuration {
  import opened Common

  /** gin's three router modes. */
  const ReleaseMode := "release"
  const DebugMode := "debug"
  const TestMode := "test"

  datatype TLSConfig = TLSConfig(useTLS: bool, certFile: string, keyFile: string)
  {
    /**
     * `tls.Config` for the HTTP server: none when TLS is off, otherwise one
     * certificate, the key pair loaded from the two files.
     */
    function Config(): (r: Option<TLSSettings>)
      ensures r.None? <==> !useTLS
      ensures r.Some? ==> |r.value.certificates| == 1 && r.value.certificates[0] == KeyPair(certFile, keyFile)
    {
      if useTLS then Some(TLSSettings([KeyPair(certFile, keyFile)])) else None
    }
  }

  /** The X.509 key pair loaded from a certificate file and a key file. */
  datatype Certificate = KeyPair(certFile: string, keyFile: string)

  /** The part of `tls.Config` the server sets. */
  datatype TLSSettings = TLSSettings(certificates: seq<Certificate>)

  datatype WebAuthnConfig = WebAuthnConfig(rpid: string, displayName: string, origins: seq<string>)
  {
    /** The relying party's `webauthn.Config`. */
    function Config(): RelyingParty {
      RelyingParty(rpid, displayName, origins)
    }
  }

  /** The part of `webauthn.Config` the server sets. */
  datatype RelyingParty = RelyingParty(rpid: string, rpDisplayName: string, rpOrigins: seq<string>)

  /**
   * `Config`. `logLevel` holds the level's name; `processed` is set only when
   * the configuration was loaded from the environment and validated.
   */
  datatype Config = Config(
    maintenance: bool,
    bindAddr: string,
    mode: string,
    logLevel: string,
    consoleLog: bool,
    allowOrigins: seq<string>,
    webAuthn: WebAuthnConfig,
    tls: TLSConfig,
    processed: bool)
  {
    /**
     * The configuration was not correctly loaded from the environment: only
     * `New` sets the processed mark, so any other value, the zero value
     * included, counts as zero.
     */
    predicate IsZero() {
      !processed
    }

    /** The router mode must be one of gin's modes. */
    function Validate(): (err: Option<Error>)
      ensures err.None? <==> mode == ReleaseMode || mode == DebugMode || mode == TestMode
      ensures err.Some? ==> err.value == InvalidMode(mode)
    {
      if mode != ReleaseMode && mode != DebugMode && mode != TestMode then Some(InvalidMode(mode)) else None
    }
  }

  /** The zero value of `Config`; the zero log level is zerolog's level 0, debug. */
  const ZeroConfig := Config(false, "", "", "debug", false, [], WebAuthnConfig("", "", []), TLSConfig(false, "", ""), false)

  /**
   * `config.New`. `loaded` is what processing the environment produced: the
   * configuration with its fields filled in, or the loader's error.
   * A failure gives the zero configuration with the error; a success gives
   * the loaded configuration marked as processed.
   */
  function New(loaded: Result<Config, Error>): (r: (Config, Option<Error>))
    ensures r.1.None? <==> loaded.Success? && loaded.value.Validate().None?
    ensures r.1.Some? ==> r.0 == ZeroConfig && r.0.IsZero()
    ensures loaded.Failure? ==> r.1 == Some(loaded.error)
    ensures loaded.Success? && r.1.Some? ==> r.1 == Some(InvalidMode(loaded.value.mode))
    ensures r.1.None? ==> r.0 == loaded.value.(processed := true) && !r.0.IsZero() && r.0.Validate().None?
  {
    if loaded.Failure? then (ZeroConfig, Some(loaded.error))
    else
      var err := loaded.value.Validate();
      if err.Some? then (ZeroConfig, err)
      else (loaded.value.(processed := true), None)
  }

  /** The zero configuration has no router mode, so it does not validate. */
  lemma ZeroConfigIsInvalid()
    ensures ZeroConfig.IsZero()
    ensures ZeroConfig.Validate() == Some(InvalidMode(""))
  {
  }

  /**
   * `IsZero` tells exactly the failed loads: what `New` returns counts as
   * zero precisely when it comes with an error.
   */
  lemma NewIsZeroExactlyOnError(loaded: Result<Config, Error>)
    ensures New(loaded).0.IsZero() <==> New(loaded).1.Some?
  {
  }
}

=== FILE: session.dfy ===
/**
 * The cookie-backed session store (session/session.go). A ceremony's
 * `webauthn.SessionData` is marshalled into the values of the session named
 * "webauthn-session" under a per-ceremony key, and read back (and deleted
 * from the values) when the ceremony finishes.
 */
module Session {
  import opened Common

  const DefaultEncryptionKeyLength := 32
  const WebauthnSession := "webauthn-session"

  /** The part of `webauthn.SessionData` the handlers rely on. */
  datatype SessionData = SessionData(challenge: seq<byte>, userID: seq<byte>)

  /** A value of `session.Values`, whose Go type is `interface{}`. */
  datatype Value = BytesValue(bytes: seq<byte>) | OtherValue(text: string)

  // ---------------------------------------------------------------------
  // Marshalling. JSON is outside the model; a self-delimiting byte framing
  // stands in for it: each byte of a field is sent as [1, b] and the field
  // ends with [0].

  function Frame(b: seq<byte>): seq<byte> {
    if b == [] then [0] else [1, b[0]] + Frame(b[1..])
  }

  /** Reads one framed field off the front of `s`, returning the field and what follows it. */
  function Unframe(s: seq<byte>): Result<(seq<byte>, seq<byte>), Error>
    decreases |s|
  {
    if |s| == 0 then Failure(External("unexpected end of JSON input"))
    else if s[0] == 0 then Success(([], s[1..]))
    else if s[0] == 1 && |s| >= 2 then
      match Unframe(s[2..])
      case Success(p) => Success(([s[1]] + p.0, p.1))
      case Failure(e) => Failure(e)
    else Failure(External("invalid character looking for beginning of value"))
  }

  /** `json.Marshal` of the session data. */
  function MarshalSession(d: SessionData): seq<byte> {
    Frame(d.userID) + Frame(d.challenge)
  }

  /** `json.Unmarshal` into a session data value; trailing bytes are an error. */
  function UnmarshalSession(b: seq<byte>): Result<SessionData, Error> {
    match Unframe(b)
    case Failure(e) => Failure(e)
    case Success(first) =>
      match Unframe(first.1)
      case Failure(e) => Failure(e)
      case Success(second) =>
        if second.1 != [] then Failure(External("invalid character after top-level value"))
        else Success(SessionData(second.0, first.0))
  }

  lemma {:induction false} UnframeFrame(b: seq<byte>, tail: seq<byte>)
    ensures Unframe(Frame(b) + tail) == Success((b, tail))
  {
    if b == [] {
      assert Frame(b) + tail == [0] + tail;
    } else {
      UnframeFrame(b[1..], tail);
      assert Frame(b) + tail == [1, b[0]] + (Frame(b[1..]) + tail);
      assert [b[0]] + b[1..] == b;
    }
  }

  /** Unmarshalling what was marshalled gives back the same session data. */
  lemma MarshalRoundTrip(d: SessionData)
    ensures UnmarshalSession(MarshalSession(d)) == Success(d)
  {
    UnframeFrame(d.userID, Frame(d.challenge));
    UnframeFrame(d.challenge, []);
    assert Frame(d.challenge) + [] == Frame(d.challenge);
  }

  // ---------------------------------------------------------------------
  // The request's sessions

  /**
   * The sessions an HTTP request carries in its cookies, as the cookie store
   * decodes them, and the sessions its response writes back. Fetching a
   * session whose cookie does not decode fails with the codec's error, the
   * same one every time during one request; fetching one with no cookie
   * gives empty values.
   */
  class Request {
    /** Session names whose cookie on this request fails to decode or authenticate, with the codec's error. */
    const undecodable: map<string, Error>
    /** `session.Values` of each session, by session name, as this request has changed them. */
    var values: map<string, map<string, Value>>
    /** The values each Set-Cookie header of the response carries, by session name. */
    var written: map<string, map<string, Value>>

    constructor (cookies: map<string, map<string, Value>>, undecodable: map<string, Error>)
      ensures this.undecodable == undecodable && values == cookies && written == map[]
    {
      this.undecodable := undecodable;
      values, written := cookies, map[];
    }

    /** `store.Get(r, name)`: the values of the named session, or the decode error. */
    function Fetch(name: string): Result<map<string, Value>, Error>
      reads this
    {
      if name in undecodable then Failure(undecodable[name])
      else if name in values then Success(values[name])
      else Success(map[])
    }

    /** What `GetWebauthnSession(key, r)` returns on this request. */
    function ReadSession(key: string): Result<SessionData, Error>
      reads this
    {
      match Fetch(WebauthnSession)
      case Failure(e) => Failure(e)
      case Success(vals) => DecodeEntry(vals, key)
    }
  }

  /** Type-checks the value under `key` as a byte slice and unmarshals it. */
  function DecodeEntry(vals: map<string, Value>, key: string): (r: Result<SessionData, Error>)
    ensures key !in vals ==> r == Failure(Marshal)
    ensures key in vals && !vals[key].BytesValue? ==> r == Failure(Marshal)
    ensures key in vals && vals[key].BytesValue? ==> r == UnmarshalSession(vals[key].bytes)
  {
    if key in vals && vals[key].BytesValue? then UnmarshalSession(vals[key].bytes) else Failure(Marshal)
  }

  /** Session data stored under a key is what a later read of that key returns. */
  lemma SavedSessionReadsBack(vals: map<string, Value>, key: string, d: SessionData)
    ensures DecodeEntry(vals[key := BytesValue(MarshalSession(d))], key) == Success(d)
  {
    MarshalRoundTrip(d);
  }

  /** Storing under one key leaves what every other key reads unchanged. */
  lemma OtherKeysUnaffected(vals: map<string, Value>, stored: string, read: string, v: Value)
    requires stored != read
    ensures DecodeEntry(vals[stored := v], read) == DecodeEntry(vals, read)
  {
  }

  /** The error `Set` reports for a session fetch: the fetch's own error, if any. */
  function FetchError(fetched: Result<map<string, Value>, Error>): Option<Error> {
    if fetched.Failure? then Some(fetched.error) else None
  }

  /**
   * The request's sessions after `Set(key, v)`: when the session could be
   * fetched, its values map `key` to `v` and nothing else changes; the
   * response carries the new values only if saving succeeded.
   */
  twostate predicate StoredInSession(r: Request, key: string, v: Value, saveOk: bool)
    reads r
  {
    match old(r.Fetch(WebauthnSession))
    case Failure(_) => r.values == old(r.values) && r.written == old(r.written)
    case Success(vals) =>
      && r.values == old(r.values)[WebauthnSession := vals[key := v]]
      && r.written == if saveOk then old(r.written)[WebauthnSession := vals[key := v]] else old(r.written)
  }

  /**
   * The request's sessions after `GetWebauthnSession(key)`: a successful read
   * deletes `key` from the values, a failed one changes nothing, and the
   * response never carries the deletion.
   */
  twostate predicate ConsumedFromSession(r: Request, key: string)
    reads r
  {
    && (old(r.ReadSession(key)).Success? ==>
         WebauthnSession in old(r.values) && r.values == old(r.values)[WebauthnSession := old(r.values)[WebauthnSession] - {key}])
    && (old(r.ReadSession(key)).Failure? ==> r.values == old(r.values))
    && r.written == old(r.written)
  }

  // ---------------------------------------------------------------------
  // The store

  /**
   * The cookie store, with its keys read as (hash key, block key) pairs:
   * cookies are authenticated with the first key of a pair and, given a
   * second, encrypted with it.
   */
  class Store {
    const keyPairs: seq<seq<byte>>

    constructor (keyPairs: seq<seq<byte>>)
      ensures this.keyPairs == keyPairs
    {
      this.keyPairs := keyPairs;
    }

    /** Marshals `data` and stores it under `key`; `saveOk` is whether writing the cookie succeeds. */
    method SaveWebauthnSession(key: string, data: SessionData, r: Request, saveOk: bool) returns (err: Option<Error>)
      modifies r
      ensures StoredInSession(r, key, BytesValue(MarshalSession(data)), saveOk)
      ensures err == FetchError(old(r.Fetch(WebauthnSession)))
    {
      var marshaled := MarshalSession(data);
      err := Set(key, BytesValue(marshaled), r, saveOk);
    }

    /**
     * Reads and unmarshals the value under `key` and deletes it from the
     * session's values. The deletion is not saved, so the response does not
     * carry it and the client's cookie still holds the value.
     */
    method GetWebauthnSession(key: string, r: Request) returns (result: Result<SessionData, Error>)
      modifies r
      ensures result == old(r.ReadSession(key))
      ensures ConsumedFromSession(r, key)
    {
      var fetched := r.Fetch(WebauthnSession);
      if fetched.Failure? {
        return Failure(fetched.error);
      }
      var vals := fetched.value;
      if !(key in vals && vals[key].BytesValue?) {
        return Failure(Marshal);
      }
      var decoded := UnmarshalSession(vals[key].bytes);
      if decoded.Failure? {
        return Failure(decoded.error);
      }
      r.values := r.values[WebauthnSession := vals - {key}];
      result := decoded;
    }

    /**
     * Stores `value` under `key` in the "webauthn-session" values and saves
     * the session. A failed save is ignored: `saveOk` only decides whether the
     * response carries the new values.
     */
    method Set(key: string, value: Value, r: Request, saveOk: bool) returns (err: Option<Error>)
      modifies r
      ensures StoredInSession(r, key, value, saveOk)
      ensures err == FetchError(old(r.Fetch(WebauthnSession)))
    {
      var fetched := r.Fetch(WebauthnSession);
      if fetched.Failure? {
        return Some(fetched.error);
      }
      r.values := r.values[WebauthnSession := fetched.value[key := value]];
      if saveOk {
        r.written := r.written[WebauthnSession := r.values[WebauthnSession]];
      }
      err := None;
    }
  }

  /**
   * Builds the store. `entropy` and `readErr` are what the system's random
   * source delivers if a key has to be generated.
   */
  method New(keyPairs: seq<seq<byte>>, entropy: seq<byte>, readErr: Option<Error>) returns (r: Result<Store, Error>)
    ensures |keyPairs| > 0 ==> r.Success? && r.value.keyPairs == keyPairs
    ensures |keyPairs| == 0 ==> (r.Success? <==> readErr.None? && |entropy| >= DefaultEncryptionKeyLength)
    ensures |keyPairs| == 0 && r.Success? ==>
      |r.value.keyPairs| == 1 && r.value.keyPairs[0] == entropy[..DefaultEncryptionKeyLength]
    ensures |keyPairs| == 0 && r.Failure? ==>
      r.error == if readErr.Some? then readErr.value else InsufficientBytesRead
  {
    var pairs := keyPairs;
    if |pairs| == 0 {
      var key, err := GenerateSecureKey(DefaultEncryptionKeyLength, entropy, readErr);
      if err.Some? {
        return Failure(err.value);
      }
      pairs := pairs + [key];
    }
    var store := new Store(pairs);
    r := Success(store);
  }

  /**
   * Fills an n-byte buffer from the random source, which delivers the bytes
   * `entropy` (as many of them as fit) and the error `readErr`.
   */
  method GenerateSecureKey(n: nat, entropy: seq<byte>, readErr: Option<Error>) returns (buf: seq<byte>, err: Option<Error>)
    ensures |buf| == n
    ensures forall i :: 0 <= i < n ==> buf[i] == if i < |entropy| then entropy[i] else 0
    ensures readErr.Some? ==> err == readErr
    ensures readErr.None? && |entropy| < n ==> err == Some(InsufficientBytesRead)
    ensures err.None? <==> readErr.None? && |entropy| >= n
    ensures err.None? ==> buf == entropy[..n]
  {
    var a := new byte[n](_ => 0);
    var read := if |entropy| < n then |entropy| else n;
    for i := 0 to read
      invariant forall j :: 0 <= j < i ==> a[j] == entropy[j]
      invariant forall j :: i <= j < n ==> a[j] == 0
    {
      a[i] := entropy[i];
    }
    buf := a[..];
    if readErr.Some? {
      return buf, readErr;
    }
    if read != n {
      return buf, Some(InsufficientBytesRead);
    }
    err := None;
  }
}

=== FILE: users.dfy ===
/**
 * The in-memory user "database" (users.go): an ID index and an email index
 * over user objects, each with an append-only list of WebAuthn credentials.
 */
module UserRegistry {
  import opened Common

  /** A registered WebAuthn credential (`webauthn.Credential`), opaque apart from its ID. */
  datatype Credential = Credential(id: seq<byte>, publicKey: seq<byte>, attestationType: string, signCount: nat)

  /** An entry of `excludeCredentials` (`protocol.CredentialDescriptor`). */
  datatype CredentialDescriptor = CredentialDescriptor(credentialType: string, credentialID: seq<byte>)

  /** `protocol.PublicKeyCredentialType`. */
  const PublicKeyCredentialType := "public-key"

  /** The argument of `Lookup`, whose Go type is `interface{}`. */
  datatype IDArg = StringID(text: string) | BytesID(bytes: seq<byte>) | UUIDValue(uuid: UUID) | OtherID

  /**
   * What a user looks like to the authenticator engine through the
   * `webauthn.User` interface: its handle, its names and its credentials.
   */
  datatype Account = Account(id: UUID, name: string, email: string, credentials: seq<Credential>)

  /** The exclude list for a credential list: one public-key descriptor per credential, in order. */
  function ExcludeList(creds: seq<Credential>): seq<CredentialDescriptor> {
    seq(|creds|, i requires 0 <= i < |creds| => CredentialDescriptor(PublicKeyCredentialType, creds[i].id))
  }

  /** Some account holds a credential with this ID. */
  predicate CredentialHeld(accounts: map<UUID, Account>, credID: seq<byte>) {
    exists id, i :: id in accounts && 0 <= i < |accounts[id].credentials| && accounts[id].credentials[i].id == credID
  }

  /** No credential ID is held twice, whether by two accounts or twice by one. */
  ghost predicate CredentialIDsUnique(accounts: map<UUID, Account>) {
    forall a, b, i, j ::
      a in accounts && b in accounts &&
      0 <= i < |accounts[a].credentials| && 0 <= j < |accounts[b].credentials| &&
      accounts[a].credentials[i].id == accounts[b].credentials[j].id
      ==> a == b && i == j
  }

  /** An account with no credentials can be added or replaced without making a credential ID held twice. */
  lemma EmptyAccountKeepsCredentialIDsUnique(accounts: map<UUID, Account>, id: UUID, account: Account)
    requires CredentialIDsUnique(accounts) && account.credentials == []
    ensures CredentialIDsUnique(accounts[id := account])
  {
    var after := accounts[id := account];
    forall a, b, i, j |
      a in after && b in after &&
      0 <= i < |after[a].credentials| && 0 <= j < |after[b].credentials| &&
      after[a].credentials[i].id == after[b].credentials[j].id
      ensures a == b && i == j
    {
      assert a != id && b != id;
      assert after[a] == accounts[a] && after[b] == accounts[b];
    }
  }

  class User {
    const ID: UUID
    const Name: string
    const Email: string
    var credentials: seq<Credential>

    constructor (id: UUID, name: string, email: string)
      ensures ID == id && Name == name && Email == email
      ensures credentials == []
    {
      ID, Name, Email := id, name, email;
      credentials := [];
    }

    /**
     * The user as the engine sees it: exactly what the `webauthn.User`
     * accessors return, the handle being the bytes of the ID.
     */
    function View(): (v: Account)
      reads this
      ensures v == Account(ID, WebAuthnDisplayName(), WebAuthnName(), WebAuthnCredentials())
      ensures FromBytes(WebAuthnID()) == Success(v.id)
    {
      Account(ID, Name, Email, credentials)
    }

    /** The user handle: the 16 bytes of the ID, within the 64-byte bound of section 5.4.3 of WebAuthn. */
    function WebAuthnID(): (handle: seq<byte>)
      ensures 0 < |handle| <= 64
      ensures FromBytes(handle) == Success(ID)
    {
      ID
    }

    /** The account name shown by the authenticator is the email address. */
    function WebAuthnName(): string {
      Email
    }

    /** The display name is the name the user registered with. */
    function WebAuthnDisplayName(): string {
      Name
    }

    /** The credentials the user has registered, oldest first. */
    function WebAuthnCredentials(): seq<Credential>
      reads this
    {
      credentials
    }

    /** The deprecated icon is always blank. */
    function WebAuthnIcon(): string {
      ""
    }

    method CredentialExcludeList() returns (exclude: seq<CredentialDescriptor>)
      ensures |exclude| == |credentials|
      ensures forall i :: 0 <= i < |exclude| ==>
        exclude[i].credentialType == PublicKeyCredentialType && exclude[i].credentialID == credentials[i].id
      ensures exclude == ExcludeList(credentials)
    {
      exclude := [];
      for k := 0 to |credentials|
        invariant |exclude| == k
        invariant forall i :: 0 <= i < k ==>
          exclude[i] == CredentialDescriptor(PublicKeyCredentialType, credentials[i].id)
      {
        var descriptor := CredentialDescriptor(PublicKeyCredentialType, credentials[k].id);
        exclude := exclude + [descriptor];
      }
    }

    method AddCredential(cred: Credential)
      modifies this
      ensures credentials == old(credentials) + [cred]
      ensures |credentials| == |old(credentials)| + 1 && credentials[|credentials| - 1] == cred
      ensures forall i :: 0 <= i < |old(credentials)| ==> credentials[i] == old(credentials)[i]
    {
      credentials := credentials + [cred];
    }
  }

  class Users {
    var users: map<UUID, User>
    var emails: map<string, UUID>
    /** `uuid.Parse`, a collaborator outside the model, supplied by whoever builds the registry. */
    const parseUUID: string -> Result<UUID, Error>

    /**
     * The two indices agree: every user sits under its own ID, every email
     * names the user with that email and every user is reachable by its
     * email. No user has the nil ID, which `GetUser` relies on.
     */
    ghost predicate Valid()
      reads this
    {
      && NilUUID !in users
      && (forall id | id in users :: users[id].ID == id)
      && (forall e | e in emails :: emails[e] in users && users[emails[e]].Email == e)
      && (forall id | id in users :: users[id].Email in emails && emails[users[id].Email] == id)
    }

    /** The users as values, keyed by ID. */
    function Accounts(): map<UUID, Account>
      reads this, users.Values
    {
      map id | id in users :: users[id].View()
    }

    /** No credential ID is held twice in the registry. */
    ghost predicate CredentialsUnique()
      reads this, users.Values
    {
      CredentialIDsUnique(Accounts())
    }

    constructor (parse: string -> Result<UUID, Error>)
      ensures Valid() && CredentialsUnique()
      ensures users == map[] && emails == map[] && parseUUID == parse
    {
      users, emails := map[], map[];
      parseUUID := parse;
    }

    function Lookup(id: IDArg): (r: Result<User, Error>)
      requires Valid()
      reads this
      ensures r.Success? ==> r.value in users.Values
      ensures id.UUIDValue? ==>
        && (r.Success? <==> id.uuid in users)
        && (r.Success? ==> r.value.ID == id.uuid)
        && (r.Failure? ==> r.error == UserNotFound)
      ensures id.BytesID? ==>
        && (r.Success? <==> |id.bytes| == 16 && id.bytes in users)
        && (r.Success? ==> r.value.ID == id.bytes)
        && (|id.bytes| != 16 ==> r == Failure(InvalidUUIDLength(|id.bytes|)))
        && (|id.bytes| == 16 && r.Failure? ==> r.error == UserNotFound)
      ensures id.StringID? ==>
        var parsed := parseUUID(id.text);
        && (r.Success? <==> parsed.Success? && parsed.value in users)
        && (r.Success? ==> r.value.ID == parsed.value)
        && (parsed.Failure? ==> r == Failure(parsed.error))
        && (parsed.Success? && r.Failure? ==> r.error == UserNotFound)
      ensures id.OtherID? ==> r == Failure(UnknownIDType)
    {
      var parsed: Result<UUID, Error> :=
        match id
        case StringID(s) => parseUUID(s)
        case BytesID(b) => FromBytes(b)
        case UUIDValue(u) => Success(u)
        case OtherID => Failure(UnknownIDType);
      if parsed.Failure? then Failure(parsed.error)
      else if parsed.value in users then Success(users[parsed.value])
      else Failure(UserNotFound)
    }

    function GetUser(email: string): (r: Result<User, Error>)
      requires Valid()
      reads this
      ensures r.Success? <==> email in emails
      ensures r.Success? ==> r.value == users[emails[email]] && r.value.Email == email
      ensures r.Failure? ==> r.error == UserNotFound
    {
      // a missing email reads as the zero UUID, under which no user is stored
      var id := if email in emails then emails[email] else NilUUID;
      if id in users then Success(users[id]) else Failure(UserNotFound)
    }

    /**
     * `id` is the value `uuid.New()` returned for this call: a version-4
     * UUID, assumed not to collide with a registered one.
     */
    method NewUser(name: string, email: string, id: UUID) returns (r: Result<User, Error>)
      requires Valid() && CredentialsUnique()
      requires IsVersion4(id) && id !in users
      modifies this
      ensures Valid() && CredentialsUnique()
      ensures old(email in emails) ==>
        r == Failure(UserAlreadyExists) && users == old(users) && emails == old(emails)
      ensures old(email !in emails) ==>
        && r.Success? && fresh(r.value)
        && r.value.ID == id && r.value.Name == name && r.value.Email == email && r.value.credentials == []
        && users == old(users)[id := r.value]
        && emails == old(emails)[email := id]
        && Accounts() == old(Accounts())[id := Account(id, name, email, [])]
    {
      ghost var before := Accounts();
      var user := new User(id, name, email);
      if email in emails {
        assert Accounts() == before;
        return Failure(UserAlreadyExists);
      }
      Version4IsNotNil(id);
      emails := emails[email := user.ID];
      users := users[user.ID := user];
      r := Success(user);
      assert Accounts() == before[id := Account(id, name, email, [])];
      EmptyAccountKeepsCredentialIDsUnique(before, id, Account(id, name, email, []));
    }

    /**
     * The name the authenticator shows for a registered user is the key
     * that finds the same user again at login.
     */
    lemma WebAuthnNameFindsUser(u: User)
      requires Valid() && u in users.Values
      ensures GetUser(u.WebAuthnName()) == Success(u)
    {
    }

    /** The user handle a stored user gives the authenticator looks that same user up. */
    lemma WebAuthnIDFindsUser(u: User)
      requires Valid() && u in users.Values
      ensures Lookup(BytesID(u.WebAuthnID())) == Success(u)
    {
      var v := u.View();
      assert u.ID in users && users[u.ID] == u;
    }

    /**
     * Some user holds a credential with the ID of `cred`. Its definition is
     * not among the files this model covers; this is the one it assumes.
     */
    function CredentialExists(cred: Credential): bool
      reads this, users.Values
    {
      CredentialHeld(Accounts(), cred.id)
    }
  }
}

=== FILE: yubikey.dfy ===
/**
 * The API server (yubikey.go): its health and readiness flags, the order in
 * which serving binds the socket and reports itself up, the graceful
 * shutdown and the URL the server derives from the address it is bound to.
 */
module Yubikey {
  import opened Common
  import opened UserRegistry
  import Configuration

  /**
   * A `net.Addr`: a TCP address with its IP bytes and port, or an address of
   * another network. `text` is what the address's `String` method returns.
   */
  datatype Addr = TCPAddr(ip: seq<byte>, port: int, text: string) | OtherAddr(network: string, text: string)

  /** The part of `url.URL` the server fills in. */
  datatype URL = URL(scheme: string, host: string)

  /** The steps of the server's life that other components observe, in the order they happen. */
  datatype Event =
    | Bound(addr: Addr)                        // the listening socket is open
    | StatusSet(healthy: bool, ready: bool)    // the flags are written
    | KeepAlivesDisabled                       // the HTTP server stops keeping connections alive
    | HTTPShutdown                             // the HTTP server's graceful shutdown is invoked

  // ---------------------------------------------------------------------
  // Unspecified addresses, as package net decides them

  const V4InV6Prefix: seq<byte> := [0, 0, 0, 0, 0, 0, 0, 0, 0, 0, 255, 255]
  /** `net.IPv4zero`, 0.0.0.0 in its 16-byte form. */
  const IPv4Zero: seq<byte> := V4InV6Prefix + [0, 0, 0, 0]
  /** `net.IPv6unspecified`, ::. */
  const IPv6Unspecified: seq<byte> := [0, 0, 0, 0, 0, 0, 0, 0, 0, 0, 0, 0, 0, 0, 0, 0]

  /** `net.IP.Equal`: the same bytes, or one IPv4 address in its 4-byte and 16-byte forms. */
  function IPEqual(ip: seq<byte>, x: seq<byte>): bool {
    if |ip| == |x| then ip == x
    else if |ip| == 4 && |x| == 16 then x[..12] == V4InV6Prefix && ip == x[12..]
    else if |ip| == 16 && |x| == 4 then ip[..12] == V4InV6Prefix && ip[12..] == x
    else false
  }

  /** `net.IP.IsUnspecified`. */
  predicate IsUnspecified(ip: seq<byte>) {
    IPEqual(ip, IPv4Zero) || IPEqual(ip, IPv6Unspecified)
  }

  /** The unspecified addresses are exactly 0.0.0.0, in either of its forms, and ::. */
  lemma UnspecifiedForms(ip: seq<byte>)
    ensures IsUnspecified(ip) <==> ip == [0, 0, 0, 0] || ip == IPv4Zero || ip == IPv6Unspecified
  {
    if |ip| == 4 {
      assert IPEqual(ip, IPv4Zero) <==> ip == IPv4Zero[12..];
      assert IPv4Zero[12..] == [0, 0, 0, 0];
      assert !IPEqual(ip, IPv6Unspecified) by {
        assert IPv6Unspecified[10] != V4InV6Prefix[10];
        assert IPv6Unspecified[..12] != V4InV6Prefix;
      }
    }
  }

  // ---------------------------------------------------------------------
  // The URL

  /**
   * The URL of a server bound to `addr`: https exactly when it has a TLS
   * configuration; the host is the address, except that a TCP address on an
   * unspecified IP is reached through the loopback address on its port.
   */
  function BoundURL(tlsEnabled: bool, addr: Addr): (u: URL)
    ensures u.scheme == "https" <==> tlsEnabled
    ensures u.scheme == "http" <==> !tlsEnabled
    ensures addr.TCPAddr? && IsUnspecified(addr.ip) ==> u.host == "127.0.0.1:" + Decimal(addr.port)
    ensures !(addr.TCPAddr? && IsUnspecified(addr.ip)) ==> u.host == addr.text
  {
    URL(if tlsEnabled then "https" else "http",
        if addr.TCPAddr? && IsUnspecified(addr.ip) then "127.0.0.1:" + Decimal(addr.port) else addr.text)
  }

  /** The loopback host of a server bound to an unspecified IP gives back the port the socket was bound to. */
  lemma LoopbackHostKeepsPort(tlsEnabled: bool, addr: Addr)
    requires addr.TCPAddr? && IsUnspecified(addr.ip) && addr.port >= 0
    ensures |BoundURL(tlsEnabled, addr).host| > 10 && BoundURL(tlsEnabled, addr).host[..10] == "127.0.0.1:"
    ensures forall i :: 10 <= i < |BoundURL(tlsEnabled, addr).host| ==> IsDigit(BoundURL(tlsEnabled, addr).host[i])
    ensures ParseDigits(BoundURL(tlsEnabled, addr).host[10..]) == addr.port
  {
    var host := BoundURL(tlsEnabled, addr).host;
    assert host == "127.0.0.1:" + Digits(addr.port);
    assert host[10..] == Digits(addr.port);
    DigitsRoundTrip(addr.port);
  }

  // ---------------------------------------------------------------------
  // Shutdown errors

  /** The single error `Shutdown` returns for the errors it collected. */
  function FoldErrors(errs: seq<Error>): (r: Option<Error>)
    ensures r.None? <==> |errs| == 0
    ensures |errs| == 1 ==> r == Some(errs[0])
    ensures |errs| > 1 ==> r == Some(ShutdownErrors(|errs|))
    ensures |errs| > 1 ==> Message(r.value) == Decimal(|errs|) + " errors occurred during shutdown"
  {
    if |errs| == 0 then None
    else if |errs| == 1 then Some(errs[0])
    else Some(ShutdownErrors(|errs|))
  }

  // ---------------------------------------------------------------------
  // The server

  /** The flags as the last status change in `trace` left them; both false before any. */
  ghost function LastStatus(trace: seq<Event>): (bool, bool)
  {
    if |trace| == 0 then (false, false)
    else if trace[|trace| - 1].StatusSet? then (trace[|trace| - 1].healthy, trace[|trace| - 1].ready)
    else LastStatus(trace[..|trace| - 1])
  }

  /** A step that is not a status change leaves the last status as it was. */
  lemma LastStatusSkips(trace: seq<Event>, e: Event)
    requires !e.StatusSet?
    ensures LastStatus(trace + [e]) == LastStatus(trace)
  {
    assert (trace + [e])[..|trace|] == trace;
  }

  class Server {
    const conf: Configuration.Config
    /** The HTTP server's TLS configuration; the server serves TLS exactly when there is one. */
    const tls: Option<Configuration.TLSSettings>
    const users: Users
    /** The relying party the WebAuthn module is built with. */
    const relyingParty: Configuration.RelyingParty
    var healthy: bool
    var ready: bool
    /** When the server started serving; none before. */
    var started: Option<int>
    var url: Option<URL>
    ghost var trace: seq<Event>

    /** The flags are those the last status change wrote. */
    ghost predicate Valid()
      reads this
    {
      (healthy, ready) == LastStatus(trace)
    }

    constructor (conf: Configuration.Config, users: Users)
      ensures this.conf == conf && tls == conf.tls.Config() && this.users == users
      ensures relyingParty == conf.webAuthn.Config()
      ensures !healthy && !ready && started.None? && url.None? && trace == []
      ensures Valid()
    {
      this.conf, this.users := conf, users;
      tls := conf.tls.Config();
      relyingParty := conf.webAuthn.Config();
      healthy, ready := false, false;
      started, url := None, None;
      trace := [];
    }

    /** Sets both flags. */
    method SetStatus(health: bool, ready: bool)
      modifies this
      ensures this.healthy == health && this.ready == ready
      ensures trace == old(trace) + [StatusSet(health, ready)]
      ensures started == old(started) && url == old(url)
      ensures Valid()
    {
      this.healthy := health;
      this.ready := ready;
      trace := trace + [StatusSet(health, ready)];
    }

    /** Records the URL the server is reached at, from the address its socket is bound to. */
    method SetURL(addr: Addr)
      modifies this
      ensures url == Some(BoundURL(tls.Some?, addr))
      ensures healthy == old(healthy) && ready == old(ready) && started == old(started) && trace == old(trace)
    {
      var u := URL("http", addr.text);
      if tls.Some? {
        u := u.(scheme := "https");
      }
      if addr.TCPAddr? && IsUnspecified(addr.ip) {
        u := u.(host := "127.0.0.1:" + Decimal(addr.port));
      }
      url := Some(u);
    }

    /**
     * Binds the socket and reports the server up. `listen` is what opening
     * the socket on the bind address gives, `now` the clock when it did,
     * and `exit` what first arrives on the server's error channel once it
     * is serving. The state described is the one at the moment serving
     * starts; a shutdown that later sends on the channel clears the flags
     * before `exit` is returned.
     */
    method Serve(listen: Result<Addr, Error>, now: int, exit: Option<Error>) returns (err: Option<Error>)
      requires Valid()
      modifies this
      ensures listen.Failure? ==>
        err == Some(ListenFailed(conf.bindAddr, Message(listen.error))) && unchanged(this)
      ensures listen.Success? ==>
        && healthy && ready && Valid()
        && trace == old(trace) + [Bound(listen.value), StatusSet(true, true)]
        && started == Some(now)
        && url == Some(BoundURL(tls.Some?, listen.value))
        && err == exit
    {
      if listen.Failure? {
        return Some(ListenFailed(conf.bindAddr, Message(listen.error)));
      }
      var sock := listen.value;
      trace := trace + [Bound(sock)];

      SetStatus(true, true);
      started := Some(now);
      SetURL(sock);
      err := exit;
    }

    /**
     * Reports the server down and shuts the HTTP server down; `httpErr` is
     * the error the HTTP server's shutdown returns, if any.
     */
    method Shutdown(httpErr: Option<Error>) returns (err: Option<Error>)
      requires Valid()
      modifies this
      ensures !healthy && !ready && Valid()
      ensures trace == old(trace) + [StatusSet(false, false), KeepAlivesDisabled, HTTPShutdown]
      ensures started == old(started) && url == old(url)
      ensures err == httpErr
    {
      SetStatus(false, false);
      var errs: seq<Error> := [];

      LastStatusSkips(trace, KeepAlivesDisabled);
      trace := trace + [KeepAlivesDisabled];
      LastStatusSkips(trace, HTTPShutdown);
      trace := trace + [HTTPShutdown];
      if httpErr.Some? {
        errs := errs + [httpErr.value];
      }

      err := FoldErrors(errs);
    }
  }

  /**
   * Builds the server. `conf` is the configuration the caller passes; when
   * it is the zero value, the configuration is loaded instead, `loaded` being
   * what processing the environment gives. `parse` is the UUID parser the
   * users registry uses, and `setupErr` the first error, if any, that
   * building the WebAuthn module, the session store or the routes reports.
   */
  method New(conf: Configuration.Config, loaded: Result<Configuration.Config, Error>,
             parse: string -> Result<UUID, Error>, setupErr: Option<Error>) returns (r: Result<Server, Error>)
    ensures var c := if conf.IsZero() then Configuration.New(loaded) else (conf, None);
      && (r.Success? <==> c.1.None? && setupErr.None?)
      && (c.1.Some? ==> r == Failure(c.1.value))
      && (c.1.None? && setupErr.Some? ==> r == Failure(setupErr.value))
      && (r.Success? ==>
            && fresh(r.value) && fresh(r.value.users)
            && r.value.conf == c.0 && !r.value.conf.IsZero()
            && r.value.tls == r.value.conf.tls.Config()
            && r.value.relyingParty == Configuration.RelyingParty(r.value.conf.webAuthn.rpid,
                 r.value.conf.webAuthn.displayName, r.value.conf.webAuthn.origins)
            && !r.value.healthy && !r.value.ready && r.value.Valid()
            && r.value.started.None? && r.value.url.None? && r.value.trace == []
            && r.value.users.users == map[] && r.value.users.emails == map[]
            && r.value.users.parseUUID == parse)
  {
    var c := conf;
    if c.IsZero() {
      var loadedConf := Configuration.New(loaded);
      if loadedConf.1.Some? {
        return Failure(loadedConf.1.value);
      }
      c := loadedConf.0;
    }
    var users := new Users(parse);
    var s := new Server(c, users);
    if setupErr.Some? {
      return Failure(setupErr.value);
    }
    r := Success(s);
  }

  /** A server that bound and then shut down reports itself down, the flags having been cleared before the HTTP shutdown. */
  method ServeThenShutdown(s: Server, addr: Addr, now: int, httpErr: Option<Error>) returns (served: Option<Error>, stopped: Option<Error>)
    requires s.Valid()
    modifies s
    ensures !s.healthy && !s.ready && s.Valid()
    ensures s.trace == old(s.trace) + [Bound(addr), StatusSet(true, true), StatusSet(false, false), KeepAlivesDisabled, HTTPShutdown]
    ensures served.None? && stopped == httpErr
    ensures s.url == Some(BoundURL(s.tls.Some?, addr))
  {
    served := s.Serve(Success(addr), now, None);
    stopped := s.Shutdown(httpErr);
  }
}
